=== FILE: README.md ===
# Game of Life engine — a Dafny model

This project models the sequential engine of a C++ Game of Life
(`src/ImplGameOfLife.cpp`) and proves its properties. The engine has four parts:

- **The `GameOfLife` object.** A fixed `size × size` board of booleans with
  bounds-checked access through `at`. It has two ways to load an initial state
  (a list of coordinates, or a whole matrix), `GetState` and `ToggleCellState`.
- **The transition rule.** `AnalyzeStateChanges` counts a cell's live
  neighbours over the eight Moore offsets, skipping offsets that fall off the
  board (there is no wraparound). It appends the cell to a *change set* when
  Conway's B3/S23 rule flips it.
- **The commit.** `DoStateChanges` negates every cell listed in a change set.
- **Partitioned generation.** A change set can be built by a full-board scan,
  by a single-row scan, or by one part of a hard-coded 2-, 4- or 16-way split
  of the board, chosen by a component index.

The object is modelled as an immutable value.

- Members that mutate the board return the object as it is afterwards.
- A member that can throw part-way through a loop returns an `Effect`. An
  `Effect` keeps the state reached before the throw, because the engine does
  not roll back.
- The change-set generators take the board by value and return only the list,
  so in the model they cannot modify the board.

`Life.Next` is the reference successor, defined cell by cell from B3/S23. The
main results are:

- **The full scan.** It returns, in row-major order and without duplicates,
  exactly the cells where `Next` differs from the board.
- **The commit.** Committing that change set yields `Next`.
- **The splits.** The corrected 2-way split and the 4- and 16-way splits tile
  the board. The parts' change sets are all read from the same pre-state.
  Together they hold the same cells as the full change set, each once.
  Committing all of them, in any order, therefore also yields `Next`. This is
  the sequential content of the engine's "parallel equals sequential" design.

Modules, in dependency order:

- `life.dfy` (`Life`): coordinates, the offsets, the in-board test, neighbour
  counts, the rule, `Next`.
- `regions.dfy` (`Regions`): the split arithmetic, with C++ truncating
  division, and the tiling proofs.
- `game.dfy` (`GameOfLife`): the object, loading, access, toggling and the
  commit.
- `changes.dfy` (`ChangeSets`): `AnalyzeStateChanges` and every scan.
- `parallel.dfy` (`Parallel`): how the parts' change sets combine, and
  commit equals `Next`.

Exceptions are modelled as values:

- `vector::at` throws `out_of_range`: `OutOfRange`.
- `vector::resize` with a negative `int` converted to a huge `size_t` throws
  `length_error`: `LengthError`.

## Model

| member | source | states |
|---|---|---|
| Life.OffsetsAreMoore | src/ImplGameOfLife.cpp:8-20 | The offset table is the Moore neighbourhood: a pair is listed exactly when both steps lie in [-1, 1] and it is not (0, 0), and no pair is listed twice. |
| Life.InBoardAmongUnrolled | src/ImplGameOfLife.cpp:8-25 | Proof helper for `NeighbourBounds`: the on-board neighbour count unfolded into an explicit sum, over the eight offsets of the table in order, of whether `CoordsInBoardSize` accepts each offset cell. |
| Life.LiveDeadPartition | src/ImplGameOfLife.cpp:133-144 | After any prefix of the offset loop, the live count plus the dead count equals the number of offsets that were on the board. Skipped offsets are counted as neither. |
| Life.NeighbourBounds | src/ImplGameOfLife.cpp:133-144 | For an on-board cell, live plus dead equals the on-board neighbours. The live count is at most the on-board count, which is at most 8 anywhere, at most 5 on an edge and at most 3 at a corner. |
| Life.FlipsIffNextDiffers | src/ImplGameOfLife.cpp:145-156 | The engine's flip test (alive with ≤ 1 or ≥ 4 live neighbours, or dead with exactly 3) holds exactly where the B3/S23 successor differs from the current cell. |
| Regions.CDiv | src/ImplGameOfLife.cpp:186-187 | Component-index division truncates toward zero. For a non-negative index the quotient is the largest q with q·d ≤ compIdx, the same as floor division. For a negative index it is the smallest q with compIdx ≤ q·d. |
| Regions.CRem | src/ImplGameOfLife.cpp:186-187 | The remainder satisfies `compIdx == CDiv·d + rem` and has magnitude below `d`. It takes the sign of the index: non-negative for a non-negative index, where it equals the mathematical remainder, and non-positive for a negative one. |
| Life.InBoard | src/ImplGameOfLife.cpp:22-25 | `CoordsInBoardSize` accepts (x, y) exactly when both coordinates lie in [0, size). |
| Regions.HalfAsWritten | src/ImplGameOfLife.cpp:162-167 | Every as-written half spans exactly size/2 rows at full width. Part 0, and every index other than 1, is the corrected part. Part 1 starts where the corrected part 1 starts but ends size mod 2 rows short of it. |
| Regions.Half | src/ImplGameOfLife.cpp:159-176 | For compIdx 0 and 1, the corrected half is the compIdx-th row tile of a two-tile axis split whose last tile ends at the board edge, at full width. |
| Regions.Quarter | src/ImplGameOfLife.cpp:181-193 | For compIdx 0..3, the region the source computes with truncating division, `compSize = size/2` and the `rowIdx == 0` end rule is tile compIdx of the 2 × 2 tiling. That tiling's last tile on each axis ends at the edge. |
| Regions.Sixteenth | src/ImplGameOfLife.cpp:211-223 | For compIdx 0..15, the region the source computes with `compSize = size/4` and the `!= valsPerComp - 1` end rule is tile compIdx of the 4 × 4 tiling. That tiling's last tile on each axis ends at the edge. |
| Regions.HalfAsWrittenCoversIffEven | src/ImplGameOfLife.cpp:162-167 | The two as-written halves stay on the board and do not overlap. They cover the board exactly when the size is even. For an odd size, the last row lies in neither half. |
| Regions.HalfAsWrittenMissesLastRow | src/ImplGameOfLife.cpp:162-167 | On a 3 × 3 board the halves are rows [0,1) and [1,2), so row 2 is never scanned. The corrected halves cover the board. |
| Regions.HalfIsPartition | src/ImplGameOfLife.cpp:159-176 | With the last half extended to the final row, the two halves tile the board for every size: in bounds, covering and disjoint. |
| Regions.QuarterIsPartition | src/ImplGameOfLife.cpp:181-193 | For compIdx 0..3 the four regions are in bounds, pairwise disjoint and cover the board. The second tile on each axis extends to the edge. |
| Regions.SixteenthIsPartition | src/ImplGameOfLife.cpp:211-223 | For compIdx 0..15 the sixteen regions are in bounds, pairwise disjoint and cover the board. The last tile on each axis extends to the edge. |
| GameOfLife.New | src/ImplGameOfLife.cpp:28-36 | A non-negative size gives a square `size × size` board with every cell dead. A negative size throws a length error. |
| GameOfLife.At | src/ImplGameOfLife.cpp:38-41 | On a square board, access succeeds exactly for `0 ≤ x, y < size` and returns that cell. Otherwise it throws out-of-range; it never clamps. |
| GameOfLife.SetInitialStateCells | src/ImplGameOfLife.cpp:43-49 | Every listed cell before the first off-board coordinate becomes alive, and every other cell keeps its state. It completes exactly when all coordinates are on the board; otherwise it throws out-of-range with that prefix applied. |
| GameOfLife.SetInitialStateCellsTwice | src/ImplGameOfLife.cpp:43-49 | Loading the same list a second time changes nothing, for every list: the second pass sets the same prefix again and throws at the same off-board coordinate, if any. An on-board list completes. |
| GameOfLife.SetInitialStateMatrixAsWritten | src/ImplGameOfLife.cpp:51-61 | The board is replaced by the matrix exactly when the row counts and the first rows' lengths agree; otherwise it is unchanged, and the size never changes. From a square board: the result stays square exactly when the guard rejects or the matrix is square. The as-written load agrees with the corrected one under the same condition, so they differ exactly on ragged matrices whose row count and first row fit. The member requires that the board and matrix are not both empty, since the guard reads `.front()`. |
| GameOfLife.MatrixAsWrittenAcceptsRagged | src/ImplGameOfLife.cpp:53-54 | The as-written guard loads the ragged matrix `[[false,false],[true]]` onto a 2 × 2 board. The board is then not square, and reading the in-range cell (1, 1) throws. The corrected load leaves the board unchanged. |
| GameOfLife.SetInitialStateMatrix | src/ImplGameOfLife.cpp:51-61 | Corrected guard: the board is replaced exactly when the matrix is `size × size`, so the square-board invariant is preserved. Otherwise it is unchanged. |
| GameOfLife.GetState | src/ImplGameOfLife.cpp:63-66 | The returned matrix is `size × size` and agrees with `at` on every on-board cell. |
| GameOfLife.ToggleCellState | src/ImplGameOfLife.cpp:125-128 | On a square board, the toggle succeeds exactly for an on-board cell. It negates that cell and leaves every other cell unchanged. Otherwise it throws out-of-range. |
| GameOfLife.ToggleTwice | src/ImplGameOfLife.cpp:125-128 | Toggling the same cell twice restores the original board. |
| GameOfLife.DoStateChanges | src/ImplGameOfLife.cpp:104-110 | The board stays square and the same size. The commit completes exactly when every listed coordinate is on the board. Otherwise it throws out-of-range, keeping the toggles already made. |
| GameOfLife.DoStateChangesCell | src/ImplGameOfLife.cpp:104-110 | Each cell ends up negated exactly when it occurs an odd number of times in the part of the list applied before any throw. Unlisted cells are unchanged. |
| GameOfLife.DoStateChangesOrderIrrelevant | src/ImplGameOfLife.cpp:104-110 | Two on-board lists that are permutations of each other commit to the same board. |
| GameOfLife.DoStateChangesTwice | src/ImplGameOfLife.cpp:104-110 | Committing the same list twice restores the original board, for every list: an off-board coordinate throws at the same place both times, after toggling the same prefix. The second commit completes exactly when the first does, which is always for an on-board list. |
| GameOfLife.DoStateChangesAppend | src/ImplGameOfLife.cpp:104-110 | Committing `cs + ds` equals committing `cs` then `ds`. A throw inside `cs` stops the commit there. |
| ChangeSets.AnalyzeStateChanges | src/ImplGameOfLife.cpp:130-157 | It succeeds exactly for an on-board cell. It then appends that cell once when the cell flips under B3/S23, and appends nothing otherwise. Off the board it throws out-of-range. |
| ChangeSets.RowChangesSpec | src/ImplGameOfLife.cpp:95-98 | A row scan's list holds exactly the flipping cells of that row in the column range, in increasing column order. |
| ChangeSets.ScanRow | src/ImplGameOfLife.cpp:95-98 | The column loop succeeds exactly when the range is empty or on the board, and then appends the row's flipping cells in order. Otherwise it throws out-of-range. |
| ChangeSets.RegionChangesSpec | src/ImplGameOfLife.cpp:72-78 | A region scan's list holds exactly the region's flipping cells, in strictly increasing row-major order. |
| ChangeSets.RowMajorOccursOnce | src/ImplGameOfLife.cpp:72-78 | A list in strict row-major order holds each of its cells exactly once. |
| ChangeSets.ScanRegion | src/ImplGameOfLife.cpp:72-78 | The nested row and column loops succeed exactly when the region is empty or on the board, and then return the region's row-major change list. Otherwise they throw out-of-range. |
| ChangeSets.RegionChangesInFull | src/ImplGameOfLife.cpp:197-202 | A region's change list is the full change set restricted to that region. |
| ChangeSets.GenNextStateChanges | src/ImplGameOfLife.cpp:68-81 | The result lists exactly the cells where `Next` differs from the board. It is in strict row-major order, hence without duplicates. |
| ChangeSets.GenNextStateChangesForRow | src/ImplGameOfLife.cpp:91-101 | It succeeds exactly when the board is empty or the row is on it. It then returns exactly the full change set's cells in that row, left to right. Otherwise it throws out-of-range. |
| ChangeSets.GenNextStateChanges2AsWritten | src/ImplGameOfLife.cpp:159-176 | Part compIdx is exactly the row-major change list of rows [compIdx·(size/2), (compIdx+1)·(size/2)), which is the full change set's cells in those rows. Parts 0 and 1 always succeed, and any index whose rows fall off the board throws. |
| ChangeSets.GenNextStateChanges2 | src/ImplGameOfLife.cpp:159-176 | As the as-written split, but with part 1 extended to the last row. |
| ChangeSets.GenNextStateChanges4 | src/ImplGameOfLife.cpp:178-206 | For compIdx 0..3, the part succeeds with exactly the full change set's cells in its tile. Any other index succeeds exactly when its truncating-division region is empty or on the board, and otherwise throws. |
| ChangeSets.GenNextStateChanges16 | src/ImplGameOfLife.cpp:208-236 | The same for the 4 × 4 tiling with compIdx 0..15. |
| Parallel.PartChangesCount | src/ImplGameOfLife.cpp:178-236 | The parts of disjoint regions, computed on the same board and concatenated, hold a cell once if it lies in some part and flips, and otherwise not at all. |
| Parallel.PartitionChangesMatchFull | src/ImplGameOfLife.cpp:178-236 | When the regions tile the board, the concatenated parts are a permutation of the full change set. |
| Parallel.CommitFullChangesCell | src/ImplGameOfLife.cpp:104-110 | Committing the full change set sets each cell to its `Next` value. |
| Parallel.CommitFullChangesIsNext | src/ImplGameOfLife.cpp:68-110 | Committing the output of `GenNextStateChanges()` completes and yields exactly `Next(board)`. |
| Parallel.CommitPartsIsNext | src/ImplGameOfLife.cpp:104-110 | For any tiling, committing all parts' change sets, computed from the same pre-state, yields `Next(board)` whatever order they commit in. |
| Parallel.TwoWayIsNext | src/ImplGameOfLife.cpp:159-176 | Committing the corrected 2-way parts yields `Next(board)`. |
| Parallel.FourWayIsNext | src/ImplGameOfLife.cpp:178-206 | Committing the four parts yields `Next(board)`. |
| Parallel.SixteenWayIsNext | src/ImplGameOfLife.cpp:208-236 | Committing the sixteen parts yields `Next(board)`, whether the lists are concatenated or each part is committed by its own call. |
| Parallel.CommitEachIsConcat | src/main-gui.cpp:44-47 | Committing the parts' change sets one call per part, in part order with a throw stopping the rest, equals one commit of their concatenation. |
| Parallel.CommitEachIsNext | src/main-gui.cpp:44-47 | For any tiling, each worker computes its part's change set from the same pre-state and commits it with its own `DoStateChanges` call. The board then ends in `Next(board)`. Any commit order is another sequence of the same tiles, which is also a tiling. |
| Parallel.TwoWayAsWrittenDropsLastRow | src/ImplGameOfLife.cpp:162-167 | On an odd-sized board, the two as-written parts together hold exactly the full change set minus its last-row cells. |

## Left out

- Threading (`src/ThreadUtils.h`, `src/main-console.cpp`, `src/main-gui.cpp`): the semaphores, barriers and thread spawning are not modelled. The parts are modelled as all computed from the same pre-state and then committed, each by its own `DoStateChanges` call (`Parallel.CommitEach`), the ordering those drivers enforce with their barriers.
- `PrintBoardState`: console output only.
- `isPowerOfTwo`: unused.
- The `reserve` calls: capacity hints only, with no effect on results.
- `src/ImplGameOfLife_Contiguous.h`: declarations only, no implementation.
- The header's two-argument `GenNextStateChanges(int, int)`: it is defined in none of the shown files, in particular not in `src/ImplGameOfLife.cpp`.
- The header's default constructor, `operator[]` (unchecked access to a mutable row) and `BoardSize`: not part of the engine's operations. Through `operator[]` a caller can resize a row and make the board non-square; see the scan lines below.
- 32-bit `int` arithmetic is not modelled; integers are unbounded. In the source, `compIdx·compSize`, `(compIdx+1)·compSize` (line 167) and `rowIdx·compSize`, `colIdx·compSize` (lines 189-193, 219-223) overflow once |compIdx| exceeds about INT_MAX / compSize, negative indices included: on a 10000 × 10000 board the 2-way split overflows from compIdx ≈ 860000, and with wrap-around compIdx = 858994 would scan rows [2704, 7704). The neighbour coordinate `i + offX` overflows for a row or column index of INT_MAX or INT_MIN. Both are undefined behaviour in the source. The model keeps these bounds unbounded, so such an index gives a region or a cell off the board and the scan reports `OutOfRange`. For component indices in range and real board sizes nothing overflows.
- ChangeSets.AnalyzeStateChanges: requires a square board. Among the modelled operations, only the as-written matrix load makes the board non-square; the header's `operator[]`, which is left out, can too, since it hands out a mutable row (`src/ImplGameOfLife.h:28-31`). On a non-square board a scan throws when it, or one of its neighbour reads, reaches a missing cell; the throw can come while analysing the row above a short row. Otherwise it reads the board as if it were square: `CoordsInBoardSize` bounds every access by the board size, so longer rows only contribute their leading size cells (e.g. `[[false,false],[true,true,true]]` on a 2 × 2 board), and a scan whose reads stay clear of a short row (on a 4 × 4 board whose row 3 has length 1, the scan of row 0) succeeds. Neither kind of board is modelled by the scans.
- ChangeSets.ScanRow: requires a square board, for the same reason; neither kind of non-square board is modelled.
- ChangeSets.ScanRegion: requires a square board, for the same reason; neither kind of non-square board is modelled.
- ChangeSets.GenNextStateChanges: requires a square board, for the same reason; neither kind of non-square board is modelled.
- ChangeSets.GenNextStateChangesForRow: requires a square board, for the same reason; neither kind of non-square board is modelled.
- ChangeSets.GenNextStateChanges2AsWritten: requires a square board, for the same reason; neither kind of non-square board is modelled.
- ChangeSets.GenNextStateChanges2: requires a square board, for the same reason; neither kind of non-square board is modelled.
- ChangeSets.GenNextStateChanges4: requires a square board, for the same reason; neither kind of non-square board is modelled.
- ChangeSets.GenNextStateChanges16: requires a square board, for the same reason; neither kind of non-square board is modelled.
- GameOfLife.SetInitialStateMatrixAsWritten: when both the board and the matrix are empty, the source calls `.front()` on empty vectors, which is undefined behaviour. The model excludes that input rather than inventing a result.
- `vector<bool>` proxy references, and copy versus move in the two matrix overloads (lines 51-61): both overloads have the same effect and are modelled once.

## Findings

| source | as written | input that shows it | evidently intended | confidence | as-written member | corrected member |
|---|---|---|---|---|---|---|
| src/ImplGameOfLife.cpp:53 | The matrix guard compares only the row count and the first row's length. | A 2 × 2 board loaded with `[[false,false],[true]]`: the matrix is accepted, the board becomes ragged, and `at(1,1)` throws although 1 < size. | Load only a `size × size` matrix. | not executed | GameOfLife.MatrixAsWrittenAcceptsRagged | GameOfLife.SetInitialStateMatrix |
| src/ImplGameOfLife.cpp:167 | The 2-way split scans rows `[k·(size/2), (k+1)·(size/2))` for both parts, so the remainder row is never analysed. | A 3 × 3 board: the parts scan rows 0 and 1 only, so a flip in row 2 is never generated or committed. | The last part extends to `size`, as in the 4- and 16-way splits. | not executed | Parallel.TwoWayAsWrittenDropsLastRow | Parallel.TwoWayIsNext |

=== FILE: changes.dfy ===
/**
 * Change-set generation: the list of cells whose state must flip to reach
 * the next generation, for one cell, for a rectangular region, for the
 * whole board, for one row and for each part of the 2-, 4- and 16-way
 * splits. Every generator only reads the board.
 */
module ChangeSets {
  import opened Life
  import opened Regions
  import opened GameOfLife

  /** Row-major order: `a` is scanned before `b`. */
  predicate Before(a: Coord, b: Coord) {
    a.x < b.x || (a.x == b.x && a.y < b.y)
  }

  /** A list in strictly increasing row-major order; in particular it has no duplicates. */
  predicate RowMajor(cs: seq<Coord>) {
    forall i, j :: 0 <= i < j < |cs| ==> Before(cs[i], cs[j])
  }

  /** The flipping cells of row x between columns lo and hi, left to right. */
  function RowChanges(b: Board, x: int, lo: int, hi: int): seq<Coord>
    requires IsBoard(b)
    requires hi <= lo || (0 <= x < |b| && 0 <= lo && hi <= |b|)
    decreases hi - lo
  {
    if hi <= lo then []
    else RowChanges(b, x, lo, hi - 1) + (if Flips(b, x, hi - 1) then [Coord(x, hi - 1)] else [])
  }

  /** A row's change list holds exactly the row's flipping cells in the range, left to right. */
  lemma {:induction false} RowChangesSpec(b: Board, x: int, lo: int, hi: int)
    requires IsBoard(b)
    requires hi <= lo || (0 <= x < |b| && 0 <= lo && hi <= |b|)
    ensures forall c :: c in RowChanges(b, x, lo, hi) <==> c.x == x && lo <= c.y < hi && Flips(b, c.x, c.y)
    ensures RowMajor(RowChanges(b, x, lo, hi))
    decreases hi - lo
  {
    if hi > lo {
      var prev := RowChanges(b, x, lo, hi - 1);
      var cell := if Flips(b, x, hi - 1) then [Coord(x, hi - 1)] else [];
      RowChangesSpec(b, x, lo, hi - 1);
      assert RowChanges(b, x, lo, hi) == prev + cell;
      forall c: Coord
        ensures c in prev + cell <==> c.x == x && lo <= c.y < hi && Flips(b, c.x, c.y)
      {
        assert c in prev + cell <==> c in prev || c in cell;
      }
      forall i, j | 0 <= i < j < |prev + cell|
        ensures Before((prev + cell)[i], (prev + cell)[j])
      {
        if j < |prev| {
          assert (prev + cell)[i] == prev[i] && (prev + cell)[j] == prev[j];
        } else {
          assert (prev + cell)[i] == prev[i] && prev[i] in prev;
        }
      }
    }
  }

  /** The region with its rows cut off at `rowHi`. */
  function RowsBelow(r: Region, rowHi: int): Region {
    r.(rowHi := rowHi)
  }

  /** The flipping cells of a region, in row-major order. */
  function RegionChanges(b: Board, r: Region): seq<Coord>
    requires IsBoard(b) && (IsEmpty(r) || Inside(r, |b|))
    decreases r.rowHi - r.rowLo
  {
    if r.rowHi <= r.rowLo then []
    else RegionChanges(b, RowsBelow(r, r.rowHi - 1)) + RowChanges(b, r.rowHi - 1, r.colLo, r.colHi)
  }

  /** A region's change list holds exactly the region's flipping cells, in row-major order. */
  lemma {:induction false} RegionChangesSpec(b: Board, r: Region)
    requires IsBoard(b) && (IsEmpty(r) || Inside(r, |b|))
    ensures forall c :: c in RegionChanges(b, r) <==> Contains(r, c.x, c.y) && Flips(b, c.x, c.y)
    ensures RowMajor(RegionChanges(b, r))
    decreases r.rowHi - r.rowLo
  {
    if r.rowHi > r.rowLo {
      var upper := RegionChanges(b, RowsBelow(r, r.rowHi - 1));
      var last := RowChanges(b, r.rowHi - 1, r.colLo, r.colHi);
      RegionChangesSpec(b, RowsBelow(r, r.rowHi - 1));
      RowChangesSpec(b, r.rowHi - 1, r.colLo, r.colHi);
      assert RegionChanges(b, r) == upper + last;
      RowMajorAppend(upper, last, r.rowHi - 1);
      RegionMembersNextRow(b, r, upper, last);
    }
  }

  /** The cells above the region's last row, then those in it, are together the region's flipping cells. */
  lemma RegionMembersNextRow(b: Board, r: Region, upper: seq<Coord>, last: seq<Coord>)
    requires IsBoard(b) && (IsEmpty(r) || Inside(r, |b|)) && r.rowHi > r.rowLo
    requires forall c :: c in upper <==> Contains(RowsBelow(r, r.rowHi - 1), c.x, c.y) && Flips(b, c.x, c.y)
    requires forall c :: c in last <==> c.x == r.rowHi - 1 && r.colLo <= c.y < r.colHi && Flips(b, c.x, c.y)
    ensures forall c :: c in upper + last <==> Contains(r, c.x, c.y) && Flips(b, c.x, c.y)
  {
    forall c: Coord
      ensures c in upper + last <==> Contains(r, c.x, c.y) && Flips(b, c.x, c.y)
    {
      assert c in upper + last <==> c in upper || c in last;
    }
  }

  /** A row-major list of cells above row x, followed by a row-major list of cells in row x, is row-major. */
  lemma RowMajorAppend(a: seq<Coord>, b: seq<Coord>, x: int)
    requires RowMajor(a) && RowMajor(b)
    requires forall c :: c in a ==> c.x < x
    requires forall c :: c in b ==> c.x == x
    ensures RowMajor(a + b)
  {
    forall i, j | 0 <= i < j < |a + b|
      ensures Before((a + b)[i], (a + b)[j])
    {
      if j < |a| {
        assert (a + b)[i] == a[i] && (a + b)[j] == a[j];
      } else if i < |a| {
        assert (a + b)[i] == a[i] && (a + b)[j] == b[j - |a|];
        assert a[i] in a && b[j - |a|] in b;
      } else {
        assert (a + b)[i] == b[i - |a|] && (a + b)[j] == b[j - |a|];
      }
    }
  }

  /** The whole board's change set, in row-major order. */
  function FullChanges(b: Board): seq<Coord>
    requires IsBoard(b)
  {
    RegionChanges(b, Whole(|b|))
  }

  /** A region's change list is the full change set restricted to the region. */
  lemma RegionChangesInFull(b: Board, r: Region)
    requires IsBoard(b) && (IsEmpty(r) || Inside(r, |b|))
    ensures forall c :: c in RegionChanges(b, r) <==> c in FullChanges(b) && Contains(r, c.x, c.y)
  {
    RegionChangesSpec(b, r);
    RegionChangesSpec(b, Whole(|b|));
  }

  /** A row-major list holds each of its elements exactly once. */
  lemma {:induction false} RowMajorOccursOnce(cs: seq<Coord>, c: Coord)
    requires RowMajor(cs)
    ensures multiset(cs)[c] == if c in cs then 1 else 0
  {
    if |cs| > 0 {
      var init := cs[..|cs| - 1];
      assert cs == init + [cs[|cs| - 1]];
      assert RowMajor(init);
      RowMajorOccursOnce(init, c);
      assert cs[|cs| - 1] !in init by {
        forall i | 0 <= i < |init|
          ensures init[i] != cs[|cs| - 1]
        {
          assert Before(cs[i], cs[|cs| - 1]);
        }
      }
    }
  }

  /**
   * `AnalyzeStateChanges`: counts the live neighbours over the eight
   * offsets, skipping those off the board, then appends (i, j) exactly when
   * the cell flips under B3/S23. Reading cell (i, j) itself throws when it is
   * off the board. The board is only read.
   */
  method AnalyzeStateChanges(g: Game, changes: seq<Coord>, i: int, j: int) returns (r: Result<seq<Coord>>)
    requires Valid(g)
    ensures r.Success? <==> InBoard(g.size, i, j)
    ensures r.Failure? ==> r.error == OutOfRange
    ensures r.Success? ==> r.value == changes + (if Flips(g.cells, i, j) then [Coord(i, j)] else [])
  {
    var nrAliveNeighbors := 0;
    var nrDeadNeighbors := 0;
    var k := 0;
    while k < |Offsets|
      invariant 0 <= k <= |Offsets|
      invariant nrAliveNeighbors == LiveAmong(g.cells, i, j, k)
      invariant nrDeadNeighbors == DeadAmong(g.cells, i, j, k)
    {
      var off := Offsets[k];
      if InBoard(g.size, i + off.x, j + off.y) {
        if g.cells[i + off.x][j + off.y] {
          nrAliveNeighbors := nrAliveNeighbors + 1;
        } else {
          nrDeadNeighbors := nrDeadNeighbors + 1;
        }
      }
      k := k + 1;
    }
    var here := At(g, i, j);
    if here.Failure? {
      return Failure(here.error);
    }
    if here.value {
      if nrAliveNeighbors <= 1 {
        r := Success(changes + [Coord(i, j)]);
      } else if nrAliveNeighbors >= 4 {
        r := Success(changes + [Coord(i, j)]);
      } else {
        r := Success(changes);
      }
    } else {
      if nrAliveNeighbors == 3 {
        r := Success(changes + [Coord(i, j)]);
      } else {
        r := Success(changes);
      }
    }
  }

  /**
   * The inner column loop of every scan: analyses cells (i, lo) … (i, hi - 1)
   * left to right, appending to `changes`. It throws at the first cell off the
   * board, so it succeeds exactly when the range is empty or on the board.
   */
  method ScanRow(g: Game, changes: seq<Coord>, i: int, lo: int, hi: int) returns (r: Result<seq<Coord>>)
    requires Valid(g)
    ensures r.Success? <==> hi <= lo || (0 <= i < g.size && 0 <= lo && hi <= g.size)
    ensures r.Failure? ==> r.error == OutOfRange
    ensures r.Success? ==> r.value == changes + RowChanges(g.cells, i, lo, hi)
  {
    var acc := changes;
    var j := lo;
    while j < hi
      invariant lo <= j && (lo <= hi ==> j <= hi) && (hi < lo ==> j == lo)
      invariant j == lo || (0 <= i < g.size && 0 <= lo && j <= g.size)
      invariant acc == changes + RowChanges(g.cells, i, lo, j)
    {
      var step := AnalyzeStateChanges(g, acc, i, j);
      if step.Failure? {
        return Failure(step.error);
      }
      RowChangesNextCol(g.cells, changes, i, lo, j);
      acc := step.value;
      j := j + 1;
    }
    r := Success(acc);
  }

  /** Extending a row's columns by one appends that cell when it flips. */
  lemma RowChangesNextCol(b: Board, changes: seq<Coord>, i: int, lo: int, j: int)
    requires IsBoard(b) && 0 <= i < |b| && 0 <= lo <= j < |b|
    ensures changes + RowChanges(b, i, lo, j + 1) ==
      changes + RowChanges(b, i, lo, j) + (if Flips(b, i, j) then [Coord(i, j)] else [])
  {
    var row := RowChanges(b, i, lo, j);
    var cell := if Flips(b, i, j) then [Coord(i, j)] else [];
    assert RowChanges(b, i, lo, j + 1) == row + cell;
    assert changes + (row + cell) == changes + row + cell;
  }

  /** Extending a region's rows by one appends that row's flipping cells. */
  lemma RegionChangesNextRow(b: Board, reg: Region, i: int)
    requires IsBoard(b) && reg.rowLo <= i
    requires IsEmpty(RowsBelow(reg, i + 1)) || Inside(RowsBelow(reg, i + 1), |b|)
    ensures IsEmpty(RowsBelow(reg, i)) || Inside(RowsBelow(reg, i), |b|)
    ensures RegionChanges(b, RowsBelow(reg, i + 1)) ==
      RegionChanges(b, RowsBelow(reg, i)) + RowChanges(b, i, reg.colLo, reg.colHi)
  {
    assert RowsBelow(RowsBelow(reg, i + 1), i) == RowsBelow(reg, i);
  }

  /**
   * The nested row-then-column scan that every generator runs over its
   * region, analysing each cell in turn. It throws at the first cell off the
   * board, so it succeeds exactly when the region is empty or on the board,
   * and then returns the region's flipping cells in row-major order.
   */
  method ScanRegion(g: Game, reg: Region) returns (r: Result<seq<Coord>>)
    requires Valid(g)
    ensures r.Success? <==> IsEmpty(reg) || Inside(reg, g.size)
    ensures r.Failure? ==> r.error == OutOfRange
    ensures r.Success? ==> r.value == RegionChanges(g.cells, reg)
  {
    var changes := [];
    var i := reg.rowLo;
    while i < reg.rowHi
      invariant reg.rowLo <= i && (reg.rowLo <= reg.rowHi ==> i <= reg.rowHi) && (reg.rowHi < reg.rowLo ==> i == reg.rowLo)
      invariant IsEmpty(RowsBelow(reg, i)) || Inside(RowsBelow(reg, i), g.size)
      invariant changes == RegionChanges(g.cells, RowsBelow(reg, i))
    {
      var row := ScanRow(g, changes, i, reg.colLo, reg.colHi);
      if row.Failure? {
        return Failure(row.error);
      }
      assert IsEmpty(RowsBelow(reg, i + 1)) || Inside(RowsBelow(reg, i + 1), g.size);
      RegionChangesNextRow(g.cells, reg, i);
      changes := row.value;
      i := i + 1;
    }
    if reg.rowHi < reg.rowLo {
      assert RegionChanges(g.cells, reg) == [];
      assert RowsBelow(reg, i).rowHi <= RowsBelow(reg, i).rowLo;
    } else {
      assert RowsBelow(reg, i) == reg;
    }
    r := Success(changes);
  }

  /**
   * `GenNextStateChanges()`: scans the whole board. The result lists, in
   * row-major order and without duplicates, exactly the cells where the next
   * generation differs from the current one.
   */
  method GenNextStateChanges(g: Game) returns (changes: seq<Coord>)
    requires Valid(g)
    ensures forall c :: c in changes <==> InBoard(g.size, c.x, c.y) && Next(g.cells)[c.x][c.y] != g.cells[c.x][c.y]
    ensures RowMajor(changes)
    ensures changes == FullChanges(g.cells)
  {
    var r := ScanRegion(g, Whole(g.size));
    changes := r.value;
    RegionChangesSpec(g.cells, Whole(g.size));
    forall c
      ensures c in changes <==> InBoard(g.size, c.x, c.y) && Next(g.cells)[c.x][c.y] != g.cells[c.x][c.y]
    {
      if InBoard(g.size, c.x, c.y) {
        assert Contains(Whole(g.size), c.x, c.y);
        FlipsIffNextDiffers(g.cells, c.x, c.y);
      }
    }
  }

  /**
   * `GenNextStateChangesForRow`: scans the one row. It throws when the row is
   * off a non-empty board; otherwise it returns exactly the full change set's
   * cells in that row, left to right.
   */
  method GenNextStateChangesForRow(g: Game, row: int) returns (r: Result<seq<Coord>>)
    requires Valid(g)
    ensures r.Success? <==> g.size == 0 || 0 <= row < g.size
    ensures r.Failure? ==> r.error == OutOfRange
    ensures r.Success? ==> forall c :: c in r.value <==> c in FullChanges(g.cells) && c.x == row
    ensures r.Success? ==> RowMajor(r.value)
  {
    r := ScanRow(g, [], row, 0, g.size);
    if r.Success? {
      RowChangesSpec(g.cells, row, 0, g.size);
      RegionChangesSpec(g.cells, Whole(g.size));
      assert [] + RowChanges(g.cells, row, 0, g.size) == RowChanges(g.cells, row, 0, g.size);
    }
  }

  /**
   * `GenNextStateChanges<2>` as written: part `compIdx` scans the rows
   * [compIdx·(size/2), (compIdx+1)·(size/2)) at full width.
   */
  method GenNextStateChanges2AsWritten(g: Game, compIdx: int) returns (r: Result<seq<Coord>>)
    requires Valid(g)
    ensures r.Success? <==> IsEmpty(HalfAsWritten(g.size, compIdx)) || Inside(HalfAsWritten(g.size, compIdx), g.size)
    ensures 0 <= compIdx < 2 ==> r.Success?
    ensures r.Failure? ==> r.error == OutOfRange
    ensures r.Success? ==> r.value == RegionChanges(g.cells, HalfAsWritten(g.size, compIdx))
    ensures r.Success? ==> forall c :: c in r.value <==>
      c in FullChanges(g.cells) && Contains(HalfAsWritten(g.size, compIdx), c.x, c.y)
  {
    if 0 <= compIdx < 2 {
      HalfAsWrittenCoversIffEven(g.size);
    }
    r := ScanRegion(g, HalfAsWritten(g.size, compIdx));
    if r.Success? {
      RegionChangesInFull(g.cells, HalfAsWritten(g.size, compIdx));
    }
  }

  /** `GenNextStateChanges<2>` with the last part extended to the final row. */
  method GenNextStateChanges2(g: Game, compIdx: int) returns (r: Result<seq<Coord>>)
    requires Valid(g)
    ensures r.Success? <==> IsEmpty(Half(g.size, compIdx)) || Inside(Half(g.size, compIdx), g.size)
    ensures 0 <= compIdx < 2 ==> r.Success? && r.value == RegionChanges(g.cells, Half(g.size, compIdx))
    ensures r.Failure? ==> r.error == OutOfRange
    ensures r.Success? ==> forall c :: c in r.value <==>
      c in FullChanges(g.cells) && Contains(Half(g.size, compIdx), c.x, c.y)
  {
    if 0 <= compIdx < 2 {
      HalfIsPartition(g.size);
      assert [Half(g.size, 0), Half(g.size, 1)][compIdx] == Half(g.size, compIdx);
    }
    r := ScanRegion(g, Half(g.size, compIdx));
    if r.Success? {
      RegionChangesInFull(g.cells, Half(g.size, compIdx));
    }
  }

  /**
   * `GenNextStateChanges<4>`: part `compIdx` scans its tile of the 2 × 2
   * tiling; for `compIdx` in 0..3 it succeeds with exactly the full change
   * set's cells in that tile.
   */
  method GenNextStateChanges4(g: Game, compIdx: int) returns (r: Result<seq<Coord>>)
    requires Valid(g)
    ensures r.Success? <==> IsEmpty(Quarter(g.size, compIdx)) || Inside(Quarter(g.size, compIdx), g.size)
    ensures 0 <= compIdx < 4 ==> r.Success? && r.value == RegionChanges(g.cells, Quarter(g.size, compIdx))
    ensures r.Failure? ==> r.error == OutOfRange
    ensures r.Success? ==> forall c :: c in r.value <==>
      c in FullChanges(g.cells) && Contains(Quarter(g.size, compIdx), c.x, c.y)
  {
    if 0 <= compIdx < 4 {
      QuarterIsPartition(g.size);
      assert seq(4, k => Quarter(g.size, k))[compIdx] == Quarter(g.size, compIdx);
    }
    r := ScanRegion(g, Quarter(g.size, compIdx));
    if r.Success? {
      RegionChangesInFull(g.cells, Quarter(g.size, compIdx));
    }
  }

  /**
   * `GenNextStateChanges<16>`: part `compIdx` scans its tile of the 4 × 4
   * tiling; for `compIdx` in 0..15 it succeeds with exactly the full change
   * set's cells in that tile.
   */
  method GenNextStateChanges16(g: Game, compIdx: int) returns (r: Result<seq<Coord>>)
    requires Valid(g)
    ensures r.Success? <==> IsEmpty(Sixteenth(g.size, compIdx)) || Inside(Sixteenth(g.size, compIdx), g.size)
    ensures 0 <= compIdx < 16 ==> r.Success? && r.value == RegionChanges(g.cells, Sixteenth(g.size, compIdx))
    ensures r.Failure? ==> r.error == OutOfRange
    ensures r.Success? ==> forall c :: c in r.value <==>
      c in FullChanges(g.cells) && Contains(Sixteenth(g.size, compIdx), c.x, c.y)
  {
    if 0 <= compIdx < 16 {
      SixteenthIsPartition(g.size);
      assert seq(16, k => Sixteenth(g.size, k))[compIdx] == Sixteenth(g.size, compIdx);
    }
    r := ScanRegion(g, Sixteenth(g.size, compIdx));
    if r.Success? {
      RegionChangesInFull(g.cells, Sixteenth(g.size, compIdx));
    }
  }
}

=== FILE: game.dfy ===
/**
 * The `GameOfLife` object: a fixed board size and a matrix of cells, with
 * bounds-checked access, the two ways of loading an initial state, single
 * cell toggles and the commit of a change set.
 *
 * The object is modelled as an immutable value; every mutating member
 * returns the object as it is left afterwards. Members that can throw part
 * way through a loop return an `Effect`, which keeps the state reached
 * before the throw, because the engine does not roll back.
 */
module GameOfLife {
  import opened Life

  /** `OutOfRange` is what `vector::at` throws; `LengthError` what `vector::resize` throws for a negative size. */
  datatype Error = OutOfRange | LengthError

  datatype Result<T> = Success(value: T) | Failure(error: Error)

  /** The engine object. `size` is fixed at construction; `cells[x][y]` is the cell in row x, column y. */
  datatype Game = Game(size: int, cells: seq<seq<bool>>)

  /** The outcome of a mutation: completed, or an exception thrown with `game` the state left behind. */
  datatype Effect = Done(game: Game) | Threw(error: Error, game: Game)

  /** The engine's invariant: the matrix is `size × size`. */
  predicate Valid(g: Game) {
    g.size == |g.cells| && IsBoard(g.cells)
  }

  /**
   * The constructor: a `boardSize × boardSize` board of dead cells. A
   * negative size becomes a huge unsigned count in `resize`, which throws.
   */
  function New(boardSize: int): (r: Result<Game>)
    ensures r.Success? <==> boardSize >= 0
    ensures r.Failure? ==> r.error == LengthError
    ensures r.Success? ==> Valid(r.value) && r.value.size == boardSize
    ensures r.Success? ==> forall x, y :: InBoard(boardSize, x, y) ==> !r.value.cells[x][y]
  {
    if boardSize < 0 then Failure(LengthError)
    else Success(Game(boardSize, seq(boardSize, _ => seq(boardSize, _ => false))))
  }

  /**
   * Checked access to one cell, as `m_board.at(x).at(y)`: it checks x against
   * the number of rows and y against the length of row x, and never clamps.
   */
  function At(g: Game, x: int, y: int): (r: Result<bool>)
    ensures Valid(g) ==> (r.Success? <==> InBoard(g.size, x, y))
    ensures r.Success? ==> 0 <= x < |g.cells| && 0 <= y < |g.cells[x]| && r.value == g.cells[x][y]
    ensures r.Failure? ==> r.error == OutOfRange
  {
    if 0 <= x < |g.cells| && 0 <= y < |g.cells[x]| then Success(g.cells[x][y])
    else Failure(OutOfRange)
  }

  /** The object with one cell replaced; nothing else changes. */
  function WithCell(g: Game, x: int, y: int, v: bool): Game
    requires 0 <= x < |g.cells| && 0 <= y < |g.cells[x]|
  {
    g.(cells := g.cells[x := g.cells[x][y := v]])
  }

  /** The length of the longest prefix of `cs` whose coordinates all lie on an n × n board. */
  function InBoardPrefix(n: int, cs: seq<Coord>): (p: nat)
    ensures p <= |cs|
    ensures forall k :: 0 <= k < p ==> InBoard(n, cs[k].x, cs[k].y)
    ensures p < |cs| ==> !InBoard(n, cs[p].x, cs[p].y)
  {
    if |cs| == 0 || !InBoard(n, cs[0].x, cs[0].y) then 0
    else 1 + InBoardPrefix(n, cs[1..])
  }

  /** Whether every coordinate of `cs` lies on an n × n board. */
  predicate AllInBoard(n: int, cs: seq<Coord>) {
    forall k :: 0 <= k < |cs| ==> InBoard(n, cs[k].x, cs[k].y)
  }

  lemma AllInBoardPrefix(n: int, cs: seq<Coord>)
    ensures AllInBoard(n, cs) <==> InBoardPrefix(n, cs) == |cs|
  {
  }

  /**
   * `SetInitialState` from a coordinate list: sets each listed cell alive, in
   * order. The first coordinate off the board throws out-of-range; the cells
   * listed before it stay set.
   */
  function SetInitialStateCells(g: Game, cs: seq<Coord>): (r: Effect)
    decreases |cs|
    ensures Valid(g) ==> Valid(r.game) && r.game.size == g.size
    ensures Valid(g) ==> (r.Done? <==> InBoardPrefix(g.size, cs) == |cs|)
    ensures r.Threw? ==> r.error == OutOfRange
    ensures Valid(g) ==> forall x, y :: InBoard(g.size, x, y) ==>
      r.game.cells[x][y] == (g.cells[x][y] || Coord(x, y) in cs[..InBoardPrefix(g.size, cs)])
  {
    if |cs| == 0 then Done(g)
    else
      match At(g, cs[0].x, cs[0].y)
      case Failure(e) => Threw(e, g)
      case Success(_) =>
        var r := SetInitialStateCells(WithCell(g, cs[0].x, cs[0].y, true), cs[1..]);
        assert Valid(g) ==> cs[..InBoardPrefix(g.size, cs)] == [cs[0]] + cs[1..][..InBoardPrefix(g.size, cs[1..])];
        r
  }

  /**
   * Loading the same coordinate list a second time changes nothing: the
   * second pass sets the same prefix again and, for a list with an off-board
   * coordinate, throws at that same coordinate. An on-board list completes.
   */
  lemma SetInitialStateCellsTwice(g: Game, cs: seq<Coord>)
    requires Valid(g)
    ensures AllInBoard(g.size, cs) ==> SetInitialStateCells(g, cs).Done?
    ensures SetInitialStateCells(SetInitialStateCells(g, cs).game, cs) == SetInitialStateCells(g, cs)
  {
    AllInBoardPrefix(g.size, cs);
    var h := SetInitialStateCells(g, cs).game;
    var h2 := SetInitialStateCells(h, cs).game;
    forall x, y | InBoard(g.size, x, y)
      ensures h2.cells[x][y] == h.cells[x][y]
    {
    }
    BoardExt(h2, h);
  }

  /**
   * `SetInitialState` from a matrix, as written: it replaces the board when
   * the row counts agree and the first rows have the same length, and is a
   * no-op otherwise. Reading the first rows is undefined when both the board
   * and the matrix are empty.
   */
  function SetInitialStateMatrixAsWritten(g: Game, m: seq<seq<bool>>): (r: Game)
    requires |g.cells| == |m| ==> |m| > 0
    ensures r.size == g.size
    ensures r == g || r.cells == m
    ensures |g.cells| == |m| && |g.cells[0]| == |m[0]| ==> r.cells == m
    ensures !(|g.cells| == |m| && |g.cells[0]| == |m[0]|) ==> r == g
    ensures Valid(g) ==> (Valid(r) <==> !(|g.cells| == |m| && |g.cells[0]| == |m[0]|) || IsBoard(m))
    ensures Valid(g) ==>
      (r == SetInitialStateMatrix(g, m) <==> !(|g.cells| == |m| && |g.cells[0]| == |m[0]|) || IsBoard(m))
  {
    if |g.cells| == |m| && |g.cells[0]| == |m[0]| then g.(cells := m) else g
  }

  /**
   * `SetInitialState` from a matrix, with the evidently intended guard: the
   * board is replaced exactly when the matrix is `size × size`, and is
   * otherwise left as it was.
   */
  function SetInitialStateMatrix(g: Game, m: seq<seq<bool>>): (r: Game)
    ensures r.size == g.size
    ensures Valid(g) ==> Valid(r)
    ensures |m| == g.size && IsBoard(m) ==> r.cells == m
    ensures !(|m| == g.size && IsBoard(m)) ==> r == g
  {
    if |m| == g.size && IsBoard(m) then g.(cells := m) else g
  }

  /**
   * The as-written matrix guard accepts a ragged matrix: on a 2 × 2 board the
   * matrix [[false, false], [true]] is loaded, after which the board is no
   * longer square and reading cell (1, 1) throws although 1 < size. The
   * corrected load leaves the board unchanged.
   */
  lemma MatrixAsWrittenAcceptsRagged()
    ensures var g := New(2).value;
      var m := [[false, false], [true]];
      && SetInitialStateMatrixAsWritten(g, m).cells == m
      && !Valid(SetInitialStateMatrixAsWritten(g, m))
      && InBoard(2, 1, 1)
      && At(SetInitialStateMatrixAsWritten(g, m), 1, 1) == Failure(OutOfRange)
      && SetInitialStateMatrix(g, m) == g
  {
    var g := New(2).value;
    var m := [[false, false], [true]];
    assert |g.cells| == 2 && |g.cells[0]| == 2;
    assert !IsBoard(m) by {
      assert |m[1]| != |m|;
    }
  }

  /** `GetState`: the cell matrix, by value; it agrees with `At` everywhere on the board. */
  function GetState(g: Game): (r: seq<seq<bool>>)
    ensures Valid(g) ==> |r| == g.size && IsBoard(r)
    ensures Valid(g) ==> forall x, y :: InBoard(g.size, x, y) ==> At(g, x, y) == Success(r[x][y])
  {
    g.cells
  }

  /** `ToggleCellState`: flips the one cell, or throws out-of-range and changes nothing. */
  function ToggleCellState(g: Game, c: Coord): (r: Result<Game>)
    ensures Valid(g) ==> (r.Success? <==> InBoard(g.size, c.x, c.y))
    ensures r.Failure? ==> r.error == OutOfRange
    ensures Valid(g) && r.Success? ==> Valid(r.value) && r.value.size == g.size
    ensures Valid(g) && r.Success? ==> forall x, y :: InBoard(g.size, x, y) ==>
      r.value.cells[x][y] == (if Coord(x, y) == c then !g.cells[x][y] else g.cells[x][y])
  {
    match At(g, c.x, c.y)
    case Failure(e) => Failure(e)
    case Success(v) => Success(WithCell(g, c.x, c.y, !v))
  }

  /** Toggling the same cell twice restores the original board. */
  lemma ToggleTwice(g: Game, c: Coord)
    requires Valid(g) && InBoard(g.size, c.x, c.y)
    ensures ToggleCellState(ToggleCellState(g, c).value, c) == Success(g)
  {
    var h := ToggleCellState(g, c).value;
    var h2 := ToggleCellState(h, c).value;
    assert h2.cells == g.cells by {
      forall x | 0 <= x < g.size
        ensures h2.cells[x] == g.cells[x]
      {
        assert forall y :: 0 <= y < g.size ==> h2.cells[x][y] == g.cells[x][y];
      }
    }
  }

  /** Whether `count` occurrences of a toggle flip a cell: an odd number do. */
  predicate Odd(count: nat) {
    count % 2 == 1
  }

  /**
   * `DoStateChanges`: toggles each listed cell in order, once per
   * occurrence. The first coordinate off the board throws out-of-range; the
   * toggles before it stay applied.
   */
  function DoStateChanges(g: Game, cs: seq<Coord>): (r: Effect)
    decreases |cs|
    ensures Valid(g) ==> Valid(r.game) && r.game.size == g.size
    ensures Valid(g) ==> (r.Done? <==> InBoardPrefix(g.size, cs) == |cs|)
    ensures r.Threw? ==> r.error == OutOfRange
  {
    if |cs| == 0 then Done(g)
    else
      match ToggleCellState(g, cs[0])
      case Failure(e) => Threw(e, g)
      case Success(h) => DoStateChanges(h, cs[1..])
  }

  /** One more occurrence flips the parity of a count. */
  lemma OddStep(count: nat, one: bool)
    ensures Odd((if one then 1 else 0) + count) == (Odd(count) != one)
  {
  }

  /** Occurrences of c in the on-board prefix: the head's, plus those in the tail's on-board prefix. */
  lemma PrefixCountStep(n: int, cs: seq<Coord>, c: Coord)
    requires |cs| > 0 && InBoard(n, cs[0].x, cs[0].y)
    ensures multiset(cs[..InBoardPrefix(n, cs)])[c] ==
      (if cs[0] == c then 1 else 0) + multiset(cs[1..][..InBoardPrefix(n, cs[1..])])[c]
  {
    var q := InBoardPrefix(n, cs[1..]);
    var tail := cs[1..][..q];
    assert InBoardPrefix(n, cs) == q + 1;
    assert cs[..q + 1] == [cs[0]] + tail;
    assert multiset([cs[0]] + tail) == multiset([cs[0]]) + multiset(tail);
  }

  /**
   * What a commit does to one cell: it is negated once per occurrence in the
   * part of the list applied before any throw, so it ends up flipped exactly
   * when it occurs there an odd number of times.
   */
  lemma {:induction false} DoStateChangesCell(g: Game, cs: seq<Coord>, x: int, y: int)
    requires Valid(g) && InBoard(g.size, x, y)
    ensures DoStateChanges(g, cs).game.cells[x][y] ==
      (g.cells[x][y] != Odd(multiset(cs[..InBoardPrefix(g.size, cs)])[Coord(x, y)]))
    decreases |cs|
  {
    var p := InBoardPrefix(g.size, cs);
    if |cs| > 0 && InBoard(g.size, cs[0].x, cs[0].y) {
      var c := Coord(x, y);
      var h := ToggleCellState(g, cs[0]).value;
      assert DoStateChanges(g, cs) == DoStateChanges(h, cs[1..]);
      DoStateChangesCell(h, cs[1..], x, y);
      PrefixCountStep(g.size, cs, c);
      var rest := multiset(cs[1..][..InBoardPrefix(g.size, cs[1..])])[c];
      OddStep(rest, cs[0] == c);
      assert h.cells[x][y] == (g.cells[x][y] != (cs[0] == c));
      assert DoStateChanges(h, cs[1..]).game.cells[x][y] == (h.cells[x][y] != Odd(rest));
    } else {
      assert cs[..p] == [];
    }
  }


  /** Two boards of the same size that agree on every cell are equal. */
  lemma BoardExt(a: Game, b: Game)
    requires Valid(a) && Valid(b) && a.size == b.size
    requires forall x, y :: InBoard(a.size, x, y) ==> a.cells[x][y] == b.cells[x][y]
    ensures a == b
  {
    forall x | 0 <= x < a.size
      ensures a.cells[x] == b.cells[x]
    {
      assert forall y :: 0 <= y < a.size ==> a.cells[x][y] == b.cells[x][y] by {
        forall y | 0 <= y < a.size ensures a.cells[x][y] == b.cells[x][y] {
          assert InBoard(a.size, x, y);
        }
      }
    }
  }

  /**
   * A commit depends only on how often each cell is listed: two lists that
   * are permutations of each other, all on the board, commit to the same
   * board.
   */
  lemma DoStateChangesOrderIrrelevant(g: Game, cs: seq<Coord>, ds: seq<Coord>)
    requires Valid(g) && AllInBoard(g.size, cs) && multiset(cs) == multiset(ds)
    ensures AllInBoard(g.size, ds)
    ensures DoStateChanges(g, cs) == DoStateChanges(g, ds)
  {
    forall k | 0 <= k < |ds|
      ensures InBoard(g.size, ds[k].x, ds[k].y)
    {
      assert ds[k] in multiset(cs);
    }
    AllInBoardPrefix(g.size, cs);
    AllInBoardPrefix(g.size, ds);
    assert cs[..|cs|] == cs && ds[..|ds|] == ds;
    forall x, y | InBoard(g.size, x, y)
      ensures DoStateChanges(g, cs).game.cells[x][y] == DoStateChanges(g, ds).game.cells[x][y]
    {
      DoStateChangesCell(g, cs, x, y);
      DoStateChangesCell(g, ds, x, y);
    }
    BoardExt(DoStateChanges(g, cs).game, DoStateChanges(g, ds).game);
  }

  /**
   * Committing the same list twice restores the original board. A list with
   * an off-board coordinate throws at that coordinate both times, after
   * toggling the same prefix, so the board is restored for every list; an
   * on-board list completes both times.
   */
  lemma DoStateChangesTwice(g: Game, cs: seq<Coord>)
    requires Valid(g)
    ensures DoStateChanges(DoStateChanges(g, cs).game, cs).game == g
    ensures DoStateChanges(DoStateChanges(g, cs).game, cs).Done? == DoStateChanges(g, cs).Done?
    ensures AllInBoard(g.size, cs) ==> DoStateChanges(g, cs).Done?
    ensures AllInBoard(g.size, cs) ==> DoStateChanges(DoStateChanges(g, cs).game, cs) == Done(g)
  {
    AllInBoardPrefix(g.size, cs);
    var h := DoStateChanges(g, cs).game;
    forall x, y | InBoard(g.size, x, y)
      ensures DoStateChanges(h, cs).game.cells[x][y] == g.cells[x][y]
    {
      DoStateChangesCell(g, cs, x, y);
      DoStateChangesCell(h, cs, x, y);
    }
    BoardExt(DoStateChanges(h, cs).game, g);
  }

  /**
   * Committing `cs + ds` is committing `cs` and then `ds` to the board it
   * leaves; a throw in `cs` stops the commit there.
   */
  lemma {:induction false} DoStateChangesAppend(g: Game, cs: seq<Coord>, ds: seq<Coord>)
    ensures DoStateChanges(g, cs + ds) ==
      match DoStateChanges(g, cs)
      case Done(h) => DoStateChanges(h, ds)
      case Threw(e, h) => Threw(e, h)
    decreases |cs|
  {
    if |cs| == 0 {
      assert cs + ds == ds;
    } else {
      assert (cs + ds)[0] == cs[0] && (cs + ds)[1..] == cs[1..] + ds;
      match ToggleCellState(g, cs[0])
      case Failure(e) =>
      case Success(h) =>
        DoStateChangesAppend(h, cs[1..], ds);
    }
  }
}

=== FILE: life.dfy ===
/**
 * Conway's Game of Life on a bounded square board: the Moore-neighbourhood
 * offsets, the in-board test, neighbour counting without wraparound, the
 * B3/S23 rule and the whole-board successor `Next`.
 *
 * This module is the reference the engine in `GameOfLife` and `ChangeSets`
 * is measured against.
 */
module Life {

  /** A cell coordinate. As in the engine, `x` selects the row and `y` the column. */
  datatype Coord = Coord(x: int, y: int)

  /** A board is a matrix of cells, `true` meaning alive. */
  type Board = seq<seq<bool>>

  /** The eight Moore offsets, in the order the engine visits them. */
  const Offsets: seq<Coord> := [
    Coord(-1, -1), Coord(-1, 0), Coord(-1, 1),
    Coord(0, -1),                Coord(0, 1),
    Coord(1, -1),  Coord(1, 0),  Coord(1, 1)
  ]

  /**
   * The offset table is the Moore neighbourhood: exactly the eight unit
   * steps other than (0, 0), each listed once.
   */
  lemma OffsetsAreMoore()
    ensures forall dx, dy :: Coord(dx, dy) in Offsets <==>
      -1 <= dx <= 1 && -1 <= dy <= 1 && (dx, dy) != (0, 0)
    ensures forall i, j :: 0 <= i < j < |Offsets| ==> Offsets[i] != Offsets[j]
  {
  }

  /** Whether (x, y) lies on an n × n board. */
  predicate InBoard(n: int, x: int, y: int)
    ensures InBoard(n, x, y) <==> 0 <= x < n && 0 <= y < n
  {
    !(x < 0 || y < 0 || x >= n || y >= n)
  }

  /** A square board: every row is as long as there are rows. */
  predicate IsBoard(b: Board) {
    forall r :: 0 <= r < |b| ==> |b[r]| == |b|
  }

  /** Whether the k-th offset from (x, y) lands on an n × n board. */
  predicate NeighbourInBoard(n: int, x: int, y: int, k: nat)
    requires k < |Offsets|
  {
    InBoard(n, x + Offsets[k].x, y + Offsets[k].y)
  }

  /** Whether the k-th neighbour of (x, y) is on the board and alive. */
  predicate NeighbourAlive(b: Board, x: int, y: int, k: nat)
    requires IsBoard(b) && k < |Offsets|
  {
    NeighbourInBoard(|b|, x, y, k) && b[x + Offsets[k].x][y + Offsets[k].y]
  }

  /** How many of the first k offsets from (x, y) land on an n × n board. */
  function InBoardAmong(n: int, x: int, y: int, k: nat): (c: nat)
    requires k <= |Offsets|
    ensures c <= k
  {
    if k == 0 then 0
    else InBoardAmong(n, x, y, k - 1) + (if NeighbourInBoard(n, x, y, k - 1) then 1 else 0)
  }

  /** How many of the first k neighbours of (x, y) are on the board and alive. */
  function LiveAmong(b: Board, x: int, y: int, k: nat): (c: nat)
    requires IsBoard(b) && k <= |Offsets|
    ensures c <= InBoardAmong(|b|, x, y, k)
  {
    if k == 0 then 0
    else LiveAmong(b, x, y, k - 1) + (if NeighbourAlive(b, x, y, k - 1) then 1 else 0)
  }

  /** How many of the first k neighbours of (x, y) are on the board and dead. */
  function DeadAmong(b: Board, x: int, y: int, k: nat): (c: nat)
    requires IsBoard(b) && k <= |Offsets|
  {
    if k == 0 then 0
    else
      var dead := NeighbourInBoard(|b|, x, y, k - 1) && !NeighbourAlive(b, x, y, k - 1);
      DeadAmong(b, x, y, k - 1) + (if dead then 1 else 0)
  }

  /** The number of live Moore neighbours of (x, y); off-board offsets are skipped. */
  function LiveNeighbours(b: Board, x: int, y: int): nat
    requires IsBoard(b)
  {
    LiveAmong(b, x, y, |Offsets|)
  }

  /** Conway's B3/S23 rule: a live cell survives with 2 or 3 live neighbours, a dead one is born with 3. */
  function Rule(alive: bool, live: nat): bool {
    if alive then live == 2 || live == 3 else live == 3
  }

  /** The successor generation: every cell updated by `Rule` from the same pre-state. */
  function Next(b: Board): (r: Board)
    requires IsBoard(b)
    ensures IsBoard(r) && |r| == |b|
  {
    seq(|b|, x requires 0 <= x < |b| =>
      seq(|b|, y requires 0 <= y < |b| => Rule(b[x][y], LiveNeighbours(b, x, y))))
  }

  /**
   * The engine's flip test for one cell: a live cell with at most one or at
   * least four live neighbours, or a dead cell with exactly three.
   */
  predicate Flips(b: Board, x: int, y: int)
    requires IsBoard(b) && InBoard(|b|, x, y)
  {
    var live := LiveNeighbours(b, x, y);
    if b[x][y] then live <= 1 || live >= 4 else live == 3
  }

  /** The flip test holds exactly where `Next` changes the cell. */
  lemma FlipsIffNextDiffers(b: Board, x: int, y: int)
    requires IsBoard(b) && InBoard(|b|, x, y)
    ensures Flips(b, x, y) <==> Next(b)[x][y] != b[x][y]
  {
  }

  /** Live and dead neighbours together are exactly the on-board neighbours. */
  lemma {:induction false} LiveDeadPartition(b: Board, x: int, y: int, k: nat)
    requires IsBoard(b) && k <= |Offsets|
    ensures LiveAmong(b, x, y, k) + DeadAmong(b, x, y, k) == InBoardAmong(|b|, x, y, k)
  {
    if k > 0 {
      LiveDeadPartition(b, x, y, k - 1);
    }
  }

  /** The on-board neighbour count, one term per offset. */
  lemma InBoardAmongUnrolled(n: int, x: int, y: int)
    ensures InBoardAmong(n, x, y, 8) ==
      (if InBoard(n, x - 1, y - 1) then 1 else 0) + (if InBoard(n, x - 1, y) then 1 else 0)
      + (if InBoard(n, x - 1, y + 1) then 1 else 0) + (if InBoard(n, x, y - 1) then 1 else 0)
      + (if InBoard(n, x, y + 1) then 1 else 0) + (if InBoard(n, x + 1, y - 1) then 1 else 0)
      + (if InBoard(n, x + 1, y) then 1 else 0) + (if InBoard(n, x + 1, y + 1) then 1 else 0)
  {
    assert InBoardAmong(n, x, y, 1) == (if InBoard(n, x - 1, y - 1) then 1 else 0);
    assert InBoardAmong(n, x, y, 2) == InBoardAmong(n, x, y, 1) + (if InBoard(n, x - 1, y) then 1 else 0);
    assert InBoardAmong(n, x, y, 3) == InBoardAmong(n, x, y, 2) + (if InBoard(n, x - 1, y + 1) then 1 else 0);
    assert InBoardAmong(n, x, y, 4) == InBoardAmong(n, x, y, 3) + (if InBoard(n, x, y - 1) then 1 else 0);
    assert InBoardAmong(n, x, y, 5) == InBoardAmong(n, x, y, 4) + (if InBoard(n, x, y + 1) then 1 else 0);
    assert InBoardAmong(n, x, y, 6) == InBoardAmong(n, x, y, 5) + (if InBoard(n, x + 1, y - 1) then 1 else 0);
    assert InBoardAmong(n, x, y, 7) == InBoardAmong(n, x, y, 6) + (if InBoard(n, x + 1, y) then 1 else 0);
  }

  /**
   * Neighbour bounds without wraparound: live plus dead neighbours is the
   * number of on-board offsets, at most 8 anywhere, at most 5 for a cell on
   * an edge and at most 3 for a corner cell; the live count obeys the same
   * bounds.
   */
  lemma NeighbourBounds(b: Board, x: int, y: int)
    requires IsBoard(b) && InBoard(|b|, x, y)
    ensures LiveNeighbours(b, x, y) + DeadAmong(b, x, y, |Offsets|) == InBoardAmong(|b|, x, y, |Offsets|)
    ensures LiveNeighbours(b, x, y) <= InBoardAmong(|b|, x, y, |Offsets|) <= 8
    ensures (x == 0 || x == |b| - 1 || y == 0 || y == |b| - 1) ==> InBoardAmong(|b|, x, y, |Offsets|) <= 5
    ensures (x == 0 || x == |b| - 1) && (y == 0 || y == |b| - 1) ==> InBoardAmong(|b|, x, y, |Offsets|) <= 3
  {
    LiveDeadPartition(b, x, y, |Offsets|);
    InBoardAmongUnrolled(|b|, x, y);
  }
}

=== FILE: parallel.dfy ===
/**
 * The sequential content of the partitioned engine: every part computes its
 * change set from the same pre-state, then all change sets are committed.
 * When the parts' regions tile the board, the parts' change sets together
 * are the full change set, and committing them yields the next generation,
 * in whatever order the parts commit.
 */
module Parallel {
  import opened Life
  import opened Regions
  import opened GameOfLife
  import opened ChangeSets

  /** Whether every region of `rs` lies on an n × n board. */
  predicate AllInside(rs: seq<Region>, n: int) {
    forall k :: 0 <= k < |rs| ==> Inside(rs[k], n)
  }

  /** The parts' change sets, all read from the same board `b`, concatenated in part order. */
  function PartChanges(b: Board, rs: seq<Region>): seq<Coord>
    requires IsBoard(b) && AllInside(rs, |b|)
  {
    if |rs| == 0 then []
    else PartChanges(b, rs[..|rs| - 1]) + RegionChanges(b, rs[|rs| - 1])
  }

  /** Some region of `rs` contains (x, y). */
  ghost predicate InSomePart(rs: seq<Region>, x: int, y: int) {
    exists k :: 0 <= k < |rs| && Contains(rs[k], x, y)
  }

  /** Dropping the last part keeps the remaining parts pairwise disjoint. */
  lemma DisjointInit(rs: seq<Region>)
    requires |rs| > 0 && Disjoint(rs)
    ensures Disjoint(rs[..|rs| - 1])
  {
    var init := rs[..|rs| - 1];
    forall k1, k2, x, y | 0 <= k1 < |init| && 0 <= k2 < |init| && k1 != k2 && Contains(init[k1], x, y)
      ensures !Contains(init[k2], x, y)
    {
      assert init[k1] == rs[k1] && init[k2] == rs[k2];
    }
  }

  /**
   * A cell lies in some part exactly when it lies in one of the earlier parts
   * or in the last one, and with disjoint parts not in both.
   */
  lemma InSomePartLast(rs: seq<Region>, x: int, y: int)
    requires |rs| > 0 && Disjoint(rs)
    ensures InSomePart(rs, x, y) <==> InSomePart(rs[..|rs| - 1], x, y) || Contains(rs[|rs| - 1], x, y)
    ensures !(InSomePart(rs[..|rs| - 1], x, y) && Contains(rs[|rs| - 1], x, y))
  {
    var init, last := rs[..|rs| - 1], rs[|rs| - 1];
    if InSomePart(rs, x, y) && !Contains(last, x, y) {
      var k :| 0 <= k < |rs| && Contains(rs[k], x, y);
      assert k < |init| && init[k] == rs[k];
    }
    if InSomePart(init, x, y) {
      var k :| 0 <= k < |init| && Contains(init[k], x, y);
      assert rs[k] == init[k];
      assert !Contains(rs[|rs| - 1], x, y);
    }
  }

  /** A region's change list holds a cell once if the region contains it and it flips, otherwise not at all. */
  lemma RegionChangesCount(b: Board, r: Region, c: Coord)
    requires IsBoard(b) && Inside(r, |b|)
    ensures multiset(RegionChanges(b, r))[c] ==
      if InBoard(|b|, c.x, c.y) && Contains(r, c.x, c.y) && Flips(b, c.x, c.y) then 1 else 0
  {
    RegionChangesSpec(b, r);
    RowMajorOccursOnce(RegionChanges(b, r), c);
  }

  /**
   * With pairwise disjoint parts, each cell occurs in the concatenated
   * change sets once if it lies in some part and flips, and otherwise not at
   * all.
   */
  lemma {:induction false} PartChangesCount(b: Board, rs: seq<Region>, c: Coord)
    requires IsBoard(b) && AllInside(rs, |b|) && Disjoint(rs)
    ensures multiset(PartChanges(b, rs))[c] ==
      if InBoard(|b|, c.x, c.y) && InSomePart(rs, c.x, c.y) && Flips(b, c.x, c.y) then 1 else 0
  {
    if |rs| > 0 {
      var init, last := rs[..|rs| - 1], rs[|rs| - 1];
      DisjointInit(rs);
      PartChangesCount(b, init, c);
      RegionChangesCount(b, last, c);
      InSomePartLast(rs, c.x, c.y);
    }
  }

  /** A cell is in the concatenated change sets of disjoint parts exactly when it lies in some part and flips. */
  lemma PartChangesMembers(b: Board, rs: seq<Region>, c: Coord)
    requires IsBoard(b) && AllInside(rs, |b|) && Disjoint(rs)
    ensures c in PartChanges(b, rs) <==> InBoard(|b|, c.x, c.y) && InSomePart(rs, c.x, c.y) && Flips(b, c.x, c.y)
  {
    PartChangesCount(b, rs, c);
  }

  /**
   * When the parts tile the board, their change sets, computed from the same
   * pre-state, are together the full change set: the same cells, each once.
   */
  lemma PartitionChangesMatchFull(b: Board, rs: seq<Region>)
    requires IsBoard(b) && IsPartition(rs, |b|)
    ensures AllInside(rs, |b|)
    ensures multiset(PartChanges(b, rs)) == multiset(FullChanges(b))
  {
    forall c
      ensures multiset(PartChanges(b, rs))[c] == multiset(FullChanges(b))[c]
    {
      PartChangesCount(b, rs, c);
      RegionChangesSpec(b, Whole(|b|));
      RowMajorOccursOnce(FullChanges(b), c);
      if InBoard(|b|, c.x, c.y) {
        assert Contains(Whole(|b|), c.x, c.y);
        assert InSomePart(rs, c.x, c.y);
      }
    }
  }

  /** Every cell of the full change set lies on the board. */
  lemma FullChangesInBoard(b: Board)
    requires IsBoard(b)
    ensures AllInBoard(|b|, FullChanges(b))
    ensures InBoardPrefix(|b|, FullChanges(b)) == |FullChanges(b)|
  {
    var cs := FullChanges(b);
    RegionChangesSpec(b, Whole(|b|));
    forall k | 0 <= k < |cs|
      ensures InBoard(|b|, cs[k].x, cs[k].y)
    {
      assert cs[k] in cs;
    }
    AllInBoardPrefix(|b|, cs);
  }

  lemma OddOnce(count: nat, once: bool)
    requires count == if once then 1 else 0
    ensures Odd(count) == once
  {
  }

  /** The full change set lists an on-board cell once if it flips, and otherwise not at all. */
  lemma FullChangesCount(b: Board, x: int, y: int)
    requires IsBoard(b) && InBoard(|b|, x, y)
    ensures multiset(FullChanges(b))[Coord(x, y)] == if Flips(b, x, y) then 1 else 0
  {
    RegionChangesCount(b, Whole(|b|), Coord(x, y));
  }

  /** Committing the full change set sets one cell to its next-generation state. */
  lemma CommitFullChangesCell(g: Game, x: int, y: int)
    requires Valid(g) && InBoard(g.size, x, y)
    ensures DoStateChanges(g, FullChanges(g.cells)).game.cells[x][y] == Next(g.cells)[x][y]
  {
    var cs := FullChanges(g.cells);
    FullChangesInBoard(g.cells);
    assert cs[..InBoardPrefix(g.size, cs)] == cs;
    DoStateChangesCell(g, cs, x, y);
    FullChangesCount(g.cells, x, y);
    OddOnce(multiset(cs)[Coord(x, y)], Flips(g.cells, x, y));
    FlipsIffNextDiffers(g.cells, x, y);
  }

  /** Committing `GenNextStateChanges()`'s output yields the next generation. */
  lemma CommitFullChangesIsNext(g: Game)
    requires Valid(g)
    ensures DoStateChanges(g, FullChanges(g.cells)) == Done(Game(g.size, Next(g.cells)))
  {
    FullChangesInBoard(g.cells);
    var after := DoStateChanges(g, FullChanges(g.cells)).game;
    forall x, y | InBoard(g.size, x, y)
      ensures after.cells[x][y] == Next(g.cells)[x][y]
    {
      CommitFullChangesCell(g, x, y);
    }
    BoardExt(after, Game(g.size, Next(g.cells)));
  }

  /**
   * Parallel equals sequential: when the parts tile the board, committing
   * all their change sets, computed from the same pre-state, yields the next
   * generation. Since a commit depends only on how often each cell is listed
   * (`DoStateChangesOrderIrrelevant`), the order in which parts commit does
   * not matter.
   */
  lemma CommitPartsIsNext(g: Game, rs: seq<Region>)
    requires Valid(g) && IsPartition(rs, g.size)
    ensures AllInside(rs, g.size)
    ensures DoStateChanges(g, PartChanges(g.cells, rs)) == Done(Game(g.size, Next(g.cells)))
  {
    PartitionChangesMatchFull(g.cells, rs);
    CommitFullChangesIsNext(g);
    var full := FullChanges(g.cells);
    FullChangesInBoard(g.cells);
    DoStateChangesOrderIrrelevant(g, full, PartChanges(g.cells, rs));
  }

  /**
   * The workers' commits one after another: each part's change set, read from
   * the same pre-state `b`, is committed by its own `DoStateChanges` call, in
   * part order, and a throw stops the remaining commits.
   */
  function CommitEach(g: Game, b: Board, rs: seq<Region>): Effect
    requires IsBoard(b) && AllInside(rs, |b|)
    decreases |rs|
  {
    if |rs| == 0 then Done(g)
    else
      match CommitEach(g, b, rs[..|rs| - 1])
      case Done(h) => DoStateChanges(h, RegionChanges(b, rs[|rs| - 1]))
      case Threw(e, h) => Threw(e, h)
  }

  /** Committing the parts one by one is committing their concatenation in one call. */
  lemma {:induction false} CommitEachIsConcat(g: Game, b: Board, rs: seq<Region>)
    requires IsBoard(b) && AllInside(rs, |b|)
    ensures CommitEach(g, b, rs) == DoStateChanges(g, PartChanges(b, rs))
    decreases |rs|
  {
    if |rs| > 0 {
      var init := rs[..|rs| - 1];
      CommitEachIsConcat(g, b, init);
      DoStateChangesAppend(g, PartChanges(b, init), RegionChanges(b, rs[|rs| - 1]));
    }
  }

  /**
   * Parallel equals sequential, commit by commit: when the parts tile the
   * board and each worker commits its own change set, computed from the same
   * pre-state, the board ends in the next generation whatever order the
   * workers commit in (every order of a tiling is a tiling).
   */
  lemma CommitEachIsNext(g: Game, rs: seq<Region>)
    requires Valid(g) && IsPartition(rs, g.size)
    ensures AllInside(rs, g.size)
    ensures CommitEach(g, g.cells, rs) == Done(Game(g.size, Next(g.cells)))
  {
    CommitPartsIsNext(g, rs);
    CommitEachIsConcat(g, g.cells, rs);
  }

  /** The two parts of the corrected 2-way split, committed together, give the next generation. */
  lemma TwoWayIsNext(g: Game)
    requires Valid(g)
    ensures AllInside([Half(g.size, 0), Half(g.size, 1)], g.size)
    ensures DoStateChanges(g, PartChanges(g.cells, [Half(g.size, 0), Half(g.size, 1)]))
      == Done(Game(g.size, Next(g.cells)))
  {
    HalfIsPartition(g.size);
    CommitPartsIsNext(g, [Half(g.size, 0), Half(g.size, 1)]);
  }

  /** The four parts of the 4-way split, committed together, give the next generation. */
  lemma FourWayIsNext(g: Game)
    requires Valid(g)
    ensures AllInside(seq(4, k => Quarter(g.size, k)), g.size)
    ensures DoStateChanges(g, PartChanges(g.cells, seq(4, k => Quarter(g.size, k))))
      == Done(Game(g.size, Next(g.cells)))
  {
    QuarterIsPartition(g.size);
    CommitPartsIsNext(g, seq(4, k => Quarter(g.size, k)));
  }

  /** The sixteen parts of the 16-way split, committed together or each by its own call, give the next generation. */
  lemma SixteenWayIsNext(g: Game)
    requires Valid(g)
    ensures AllInside(seq(16, k => Sixteenth(g.size, k)), g.size)
    ensures DoStateChanges(g, PartChanges(g.cells, seq(16, k => Sixteenth(g.size, k))))
      == Done(Game(g.size, Next(g.cells)))
    ensures CommitEach(g, g.cells, seq(16, k => Sixteenth(g.size, k))) == Done(Game(g.size, Next(g.cells)))
  {
    SixteenthIsPartition(g.size);
    CommitPartsIsNext(g, seq(16, k => Sixteenth(g.size, k)));
    CommitEachIsNext(g, seq(16, k => Sixteenth(g.size, k)));
  }

  /**
   * The as-written 2-way split on an odd board: its two parts' change sets
   * together hold every flipping cell except those in the last row, which
   * are never analysed.
   */
  lemma TwoWayAsWrittenDropsLastRow(g: Game, c: Coord)
    requires Valid(g) && g.size % 2 == 1
    ensures AllInside([HalfAsWritten(g.size, 0), HalfAsWritten(g.size, 1)], g.size)
    ensures c in PartChanges(g.cells, [HalfAsWritten(g.size, 0), HalfAsWritten(g.size, 1)]) <==>
      c in FullChanges(g.cells) && c.x != g.size - 1
  {
    var rs := [HalfAsWritten(g.size, 0), HalfAsWritten(g.size, 1)];
    HalfAsWrittenCoversIffEven(g.size);
    PartChangesMembers(g.cells, rs, c);
    RegionChangesSpec(g.cells, Whole(g.size));
    if InBoard(g.size, c.x, c.y) {
      assert Contains(Whole(g.size), c.x, c.y);
      if c.x < g.size / 2 {
        assert Contains(rs[0], c.x, c.y);
      } else if c.x < g.size - 1 {
        assert Contains(rs[1], c.x, c.y);
      } else {
        assert !InSomePart(rs, c.x, c.y) by {
          forall k | 0 <= k < 2
            ensures !Contains(rs[k], c.x, c.y)
          {
          }
        }
      }
    }
  }
}

=== FILE: regions.dfy ===
/**
 * The rectangular regions that the partitioned change-set generators scan,
 * computed with the engine's integer arithmetic, and the proofs that the
 * 2-, 4- and 16-way splits tile the board without overlap.
 */
module Regions {
  import opened Life

  /** Half-open row range [rowLo, rowHi) times half-open column range [colLo, colHi). */
  datatype Region = Region(rowLo: int, rowHi: int, colLo: int, colHi: int)

  predicate Contains(r: Region, x: int, y: int) {
    r.rowLo <= x < r.rowHi && r.colLo <= y < r.colHi
  }

  /** A region in which the nested scan loops visit no cell at all. */
  predicate IsEmpty(r: Region) {
    r.rowHi <= r.rowLo || r.colHi <= r.colLo
  }

  /** A region whose bounds stay within an n × n board. */
  predicate Inside(r: Region, n: int) {
    0 <= r.rowLo && r.rowHi <= n && 0 <= r.colLo && r.colHi <= n
  }

  /** The full-board scan. */
  function Whole(n: int): Region {
    Region(0, n, 0, n)
  }

  /** C++ integer division of `int`s, which truncates toward zero. */
  function CDiv(a: int, d: int): (q: int)
    requires d > 0
    ensures a >= 0 ==> q * d <= a < (q + 1) * d
    ensures a < 0 ==> (q - 1) * d < a <= q * d
    ensures a >= 0 ==> q == a / d
  {
    if a >= 0 then a / d else -((-a) / d)
  }

  /** C++ remainder of `int`s: it takes the sign of the dividend. */
  function CRem(a: int, d: int): (r: int)
    requires d > 0
    ensures a == CDiv(a, d) * d + r
    ensures -d < r < d
    ensures a >= 0 ==> 0 <= r
    ensures a < 0 ==> r <= 0
    ensures a >= 0 ==> r == a % d
  {
    a - CDiv(a, d) * d
  }

  /**
   * The 2-way split as written: part `compIdx` scans the full-width rows
   * [compIdx·(n/2), (compIdx+1)·(n/2)); nothing absorbs the remainder row.
   */
  function HalfAsWritten(n: int, compIdx: int): (r: Region)
    requires n >= 0
    ensures r.rowHi - r.rowLo == n / 2 && r.colLo == 0 && r.colHi == n
    ensures compIdx != 1 ==> r == Half(n, compIdx)
    ensures compIdx == 1 ==> r.rowLo == Half(n, 1).rowLo && Half(n, 1).rowHi - r.rowHi == n % 2
  {
    var compSize := n / 2;
    Region(compIdx * compSize, (compIdx + 1) * compSize, 0, n)
  }

  /** The 2-way split with the last part extended to the board edge, as the 4- and 16-way splits do. */
  function Half(n: int, compIdx: int): (r: Region)
    requires n >= 0
    ensures 0 <= compIdx < 2 ==> r == Region(AxisLo(n, 2, compIdx), AxisHi(n, 2, compIdx), 0, n)
  {
    var compSize := n / 2;
    var endRowIdx := if compIdx != 1 then (compIdx + 1) * compSize else n;
    Region(compIdx * compSize, endRowIdx, 0, n)
  }

  /** The 4-way split: a 2 × 2 tiling; the second tile on each axis extends to the edge. */
  function Quarter(n: int, compIdx: int): (r: Region)
    requires n >= 0
    ensures 0 <= compIdx < 4 ==> r == Tile(n, 2, compIdx)
  {
    var valsPerComp := 2;
    var compSize := n / valsPerComp;
    var rowIdx := CDiv(compIdx, valsPerComp);
    var colIdx := CRem(compIdx, valsPerComp);
    var endRowIdx := if rowIdx == 0 then (rowIdx + 1) * compSize else n;
    var endColIdx := if colIdx == 0 then (colIdx + 1) * compSize else n;
    Region(rowIdx * compSize, endRowIdx, colIdx * compSize, endColIdx)
  }

  /** The 16-way split: a 4 × 4 tiling; the last tile on each axis extends to the edge. */
  function Sixteenth(n: int, compIdx: int): (r: Region)
    requires n >= 0
    ensures 0 <= compIdx < 16 ==> r == Tile(n, 4, compIdx)
  {
    var valsPerComp := 4;
    var compSize := n / valsPerComp;
    var rowIdx := CDiv(compIdx, valsPerComp);
    var colIdx := CRem(compIdx, valsPerComp);
    var endRowIdx := if rowIdx != valsPerComp - 1 then (rowIdx + 1) * compSize else n;
    var endColIdx := if colIdx != valsPerComp - 1 then (colIdx + 1) * compSize else n;
    Region(rowIdx * compSize, endRowIdx, colIdx * compSize, endColIdx)
  }

  /** Every cell of the n × n board lies in some region of `rs`. */
  ghost predicate Covers(rs: seq<Region>, n: int) {
    forall x, y :: InBoard(n, x, y) ==> exists k :: 0 <= k < |rs| && Contains(rs[k], x, y)
  }

  /** No cell lies in two different regions of `rs`. */
  ghost predicate Disjoint(rs: seq<Region>) {
    forall k1, k2, x, y ::
      0 <= k1 < |rs| && 0 <= k2 < |rs| && k1 != k2 && Contains(rs[k1], x, y) ==> !Contains(rs[k2], x, y)
  }

  /** `rs` tiles the n × n board: every region in bounds, together covering it, pairwise disjoint. */
  ghost predicate IsPartition(rs: seq<Region>, n: int) {
    && (forall k :: 0 <= k < |rs| ==> Inside(rs[k], n))
    && Covers(rs, n)
    && Disjoint(rs)
  }

  // One axis of a tiling into `parts` tiles: tile t spans [t·(n/parts), (t+1)·(n/parts)),
  // except the last, which ends at n.

  function AxisLo(n: nat, parts: nat, t: int): int
    requires parts > 0
  {
    t * (n / parts)
  }

  function AxisHi(n: nat, parts: nat, t: int): int
    requires parts > 0
  {
    if t != parts - 1 then (t + 1) * (n / parts) else n
  }

  lemma MulMonotone(a: int, b: int, c: nat)
    requires a <= b
    ensures a * c <= b * c
  {
  }

  /** Every axis tile lies within [0, n). */
  lemma AxisTileInside(n: nat, parts: nat, t: int)
    requires parts > 0 && 0 <= t < parts
    ensures 0 <= AxisLo(n, parts, t) <= AxisHi(n, parts, t) <= n
  {
    MulMonotone(t, t + 1, n / parts);
    MulMonotone(t + 1, parts, n / parts);
    MulMonotone(0, t, n / parts);
  }

  /** Truncating division brackets its dividend: q·d <= x < (q+1)·d for q = x / d. */
  lemma DivBracket(x: nat, d: nat)
    requires d > 0
    ensures (x / d) * d <= x < (x / d + 1) * d
  {
  }

  /** The tile that holds coordinate x. */
  function AxisTile(n: nat, parts: nat, x: int): (t: nat)
    requires parts > 0 && 0 <= x < n
    ensures t < parts && AxisLo(n, parts, t) <= x < AxisHi(n, parts, t)
  {
    var size := n / parts;
    if size == 0 then
      parts - 1
    else
      var q := x / size;
      DivBracket(x, size);
      if q >= parts - 1 then
        MulMonotone(parts - 1, q, size);
        parts - 1
      else
        q
  }

  /** No coordinate lies in two different tiles of one axis. */
  lemma AxisTilesDisjoint(n: nat, parts: nat, t1: int, t2: int, x: int)
    requires parts > 0 && 0 <= t1 < parts && 0 <= t2 < parts
    requires AxisLo(n, parts, t1) <= x < AxisHi(n, parts, t1)
    requires AxisLo(n, parts, t2) <= x < AxisHi(n, parts, t2)
    ensures t1 == t2
  {
    if t1 < t2 {
      MulMonotone(t1 + 1, t2, n / parts);
    } else if t2 < t1 {
      MulMonotone(t2 + 1, t1, n / parts);
    }
  }

  /** Division by `parts` recovers the row and column tile of a combined index. */
  lemma CombinedIndex(tr: nat, tc: nat, parts: nat)
    requires 0 <= tc < parts
    ensures (tr * parts + tc) / parts == tr && (tr * parts + tc) % parts == tc
  {
    var k := tr * parts + tc;
    var q, r := k / parts, k % parts;
    assert (tr - q) * parts == r - tc;
    if tr - q >= 1 {
      MulMonotone(1, tr - q, parts);
    } else if tr - q <= -1 {
      MulMonotone(tr - q, -1, parts);
    }
  }

  /** Tile `compIdx` of a parts × parts tiling, row tile first. */
  function Tile(n: nat, parts: nat, compIdx: int): Region
    requires parts > 0
  {
    var rowIdx := compIdx / parts;
    var colIdx := compIdx % parts;
    Region(AxisLo(n, parts, rowIdx), AxisHi(n, parts, rowIdx), AxisLo(n, parts, colIdx), AxisHi(n, parts, colIdx))
  }

  /** The row and column tile of an index below parts · parts are both below parts. */
  lemma SplitIndex(k: int, parts: nat)
    requires parts > 0 && 0 <= k < parts * parts
    ensures 0 <= k / parts < parts && 0 <= k % parts < parts
    ensures k == (k / parts) * parts + k % parts
  {
    var q := k / parts;
    if q >= parts {
      MulMonotone(parts, q, parts);
    }
  }

  lemma TilesInside(n: nat, parts: nat, rs: seq<Region>)
    requires parts > 0 && rs == seq(parts * parts, k => Tile(n, parts, k))
    ensures forall k :: 0 <= k < |rs| ==> Inside(rs[k], n)
  {
    forall k | 0 <= k < |rs|
      ensures Inside(rs[k], n)
    {
      SplitIndex(k, parts);
      var q, r := k / parts, k % parts;
      AxisTileInside(n, parts, q);
      AxisTileInside(n, parts, r);
      assert rs[k] == Region(AxisLo(n, parts, q), AxisHi(n, parts, q), AxisLo(n, parts, r), AxisHi(n, parts, r));
    }
  }

  lemma TilesCover(n: nat, parts: nat, rs: seq<Region>)
    requires parts > 0 && rs == seq(parts * parts, k => Tile(n, parts, k))
    ensures Covers(rs, n)
  {
    forall x, y | InBoard(n, x, y)
      ensures exists k :: 0 <= k < |rs| && Contains(rs[k], x, y)
    {
      var tr := AxisTile(n, parts, x);
      var tc := AxisTile(n, parts, y);
      var k := tr * parts + tc;
      MulMonotone(tr, parts - 1, parts);
      assert (parts - 1) * parts + tc < parts * parts;
      assert 0 <= k < |rs|;
      CombinedIndex(tr, tc, parts);
      assert rs[k] == Region(AxisLo(n, parts, tr), AxisHi(n, parts, tr), AxisLo(n, parts, tc), AxisHi(n, parts, tc));
      assert Contains(rs[k], x, y);
    }
  }

  lemma TilesDisjoint(n: nat, parts: nat, rs: seq<Region>)
    requires parts > 0 && rs == seq(parts * parts, k => Tile(n, parts, k))
    ensures Disjoint(rs)
  {
    forall k1, k2, x, y |
      0 <= k1 < |rs| && 0 <= k2 < |rs| && k1 != k2 && Contains(rs[k1], x, y)
      ensures !Contains(rs[k2], x, y)
    {
      SplitIndex(k1, parts);
      SplitIndex(k2, parts);
      var q1, r1, q2, r2 := k1 / parts, k1 % parts, k2 / parts, k2 % parts;
      assert rs[k1] == Region(AxisLo(n, parts, q1), AxisHi(n, parts, q1), AxisLo(n, parts, r1), AxisHi(n, parts, r1));
      assert rs[k2] == Region(AxisLo(n, parts, q2), AxisHi(n, parts, q2), AxisLo(n, parts, r2), AxisHi(n, parts, r2));
      if Contains(rs[k2], x, y) {
        AxisTilesDisjoint(n, parts, q1, q2, x);
        AxisTilesDisjoint(n, parts, r1, r2, y);
        assert false;
      }
    }
  }

  /** The parts × parts tiling tiles the board. */
  lemma TilingIsPartition(n: nat, parts: nat)
    requires parts > 0
    ensures IsPartition(seq(parts * parts, k => Tile(n, parts, k)), n)
  {
    var rs := seq(parts * parts, k => Tile(n, parts, k));
    TilesInside(n, parts, rs);
    TilesCover(n, parts, rs);
    TilesDisjoint(n, parts, rs);
  }

  /** The 4-way split's regions tile the board, the second tile on each axis absorbing the remainder. */
  lemma QuarterIsPartition(n: nat)
    ensures IsPartition(seq(4, k => Quarter(n, k)), n)
  {
    TilingIsPartition(n, 2);
    assert seq(4, k => Quarter(n, k)) == seq(2 * 2, k => Tile(n, 2, k));
  }

  /** The 16-way split's regions tile the board, the last tile on each axis absorbing the remainder. */
  lemma SixteenthIsPartition(n: nat)
    ensures IsPartition(seq(16, k => Sixteenth(n, k)), n)
  {
    TilingIsPartition(n, 4);
    assert seq(16, k => Sixteenth(n, k)) == seq(4 * 4, k => Tile(n, 4, k));
  }

  /** The corrected 2-way split tiles the board for every size. */
  lemma HalfIsPartition(n: nat)
    ensures IsPartition([Half(n, 0), Half(n, 1)], n)
  {
    var rs := [Half(n, 0), Half(n, 1)];
    AxisTileInside(n, 2, 0);
    AxisTileInside(n, 2, 1);
    forall x, y | InBoard(n, x, y)
      ensures exists k :: 0 <= k < |rs| && Contains(rs[k], x, y)
    {
      var t := AxisTile(n, 2, x);
      assert Contains(rs[t], x, y);
    }
    forall k1, k2, x, y | 0 <= k1 < 2 && 0 <= k2 < 2 && k1 != k2 && Contains(rs[k1], x, y)
      ensures !Contains(rs[k2], x, y)
    {
      if Contains(rs[k2], x, y) {
        AxisTilesDisjoint(n, 2, k1, k2, x);
      }
    }
  }

  /**
   * The 2-way split as written: its two parts stay on the board and do not
   * overlap, but they cover the board exactly when n is even; for odd n the
   * last row is in neither part.
   */
  lemma HalfAsWrittenCoversIffEven(n: nat)
    ensures Inside(HalfAsWritten(n, 0), n) && Inside(HalfAsWritten(n, 1), n)
    ensures Disjoint([HalfAsWritten(n, 0), HalfAsWritten(n, 1)])
    ensures Covers([HalfAsWritten(n, 0), HalfAsWritten(n, 1)], n) <==> n % 2 == 0
    ensures n % 2 == 1 ==>
      !Contains(HalfAsWritten(n, 0), n - 1, 0) && !Contains(HalfAsWritten(n, 1), n - 1, 0)
  {
    var rs := [HalfAsWritten(n, 0), HalfAsWritten(n, 1)];
    if n % 2 == 0 {
      forall x, y | InBoard(n, x, y)
        ensures exists k :: 0 <= k < |rs| && Contains(rs[k], x, y)
      {
        if x < n / 2 {
          assert Contains(rs[0], x, y);
        } else {
          assert Contains(rs[1], x, y);
        }
      }
    } else {
      assert InBoard(n, n - 1, 0);
      assert !Contains(rs[0], n - 1, 0) && !Contains(rs[1], n - 1, 0);
    }
  }

  /** Three rows split two ways: row 2 is never scanned by the as-written split. */
  lemma HalfAsWrittenMissesLastRow()
    ensures HalfAsWritten(3, 0) == Region(0, 1, 0, 3)
    ensures HalfAsWritten(3, 1) == Region(1, 2, 0, 3)
    ensures !Covers([HalfAsWritten(3, 0), HalfAsWritten(3, 1)], 3)
    ensures Covers([Half(3, 0), Half(3, 1)], 3)
  {
    HalfAsWrittenCoversIffEven(3);
    HalfIsPartition(3);
  }
}
